=== FILE: README.md ===
# Task-list API, modelled in Dafny

A model of the Flask service in `app.py`. The service keeps a user table
(`usuarios`), a task table (`tareas`) and one login session. It offers JSON
endpoints to register, log in, log out, ask for the session's status, and
list, add, delete and complete the caller's own tasks.

Each endpoint is a pure function from the current state and the request's
inputs to a `Step`: the next state and the response. The state is the two
tables, the next id each AUTOINCREMENT column will hand out, and the user id
the session cookie carries.

Every handler requires the invariant `Store.Valid`, which holds of
`Store.Init()` and which every handler keeps. It says:

- user names are unique (`usuario TEXT UNIQUE`);
- every id lies below its counter;
- every task's owner exists;
- every description is non-empty and stripped;
- the session names an existing user.

Modules:

- `Wrappers`: `Option`.
- `Text`: Python's `str.strip()` on ASCII whitespace, with a reference
  definition (`IsStripOf`) and the uniqueness lemma that ties the two
  together. Also the decimal text SQLite stores for an integer bound to a
  TEXT column.
- `Json`: the decoded request values. It covers Python truthiness (`not v`)
  and what the sqlite3 driver does with each value it binds: strings as text,
  integers within signed 64 bits and booleans as decimal text, `None` as
  NULL, and lists, dicts and wider integers refused (a 500).
- `Store`: the state, its invariant, and the table changes. Each change comes
  with a frame predicate saying that nothing else changes. The module also
  holds `User.get_by_username` and `current_user`.
- `Api`: the eight endpoints, the 401 login gate, the status codes and the
  router `Handle`.
- `Properties`: lemmas relating several requests. They cover:
  - the login gate;
  - isolation between users;
  - login failures with string fields, which do not reveal which names
    exist (a non-string password does reveal them);
  - round trips between operations;
  - idempotence of the completion flag;
  - one complete session, from registration to logout.

Password hashing is the library's business. It is a `PasswordScheme` value
with a `hash(password, salt)` and a `matches(stored, password)` function.
The random salt is an input of the registration request. Lemmas that need
the library to work assume `Sound(scheme)`: a hash is never empty and accepts
its own password.

## Model

| member | source | states |
|---|---|---|
| Api.Response.Code | app.py:15-203 | Every answer carries 200, 201, 400, 401, 404, 409 or 500. The failures are exactly the codes of 400 or more. 201 is exactly registration and task creation, 400 exactly a rejected body, 401 exactly the login gate or a failed login, 404 exactly a task that is not the caller's, 409 exactly a taken name, and 500 exactly a raised exception. |
| Api.Register | app.py:56-87 | Changes the state only on 201 and keeps `Valid`. A body without both fields gets 400 `MissingCredentials`. A falsy field gets 400 `EmptyCredentials`. For two non-empty strings, 409 holds exactly when the name is taken and 201 exactly when it is free. A 201 inserts `User(name, hash(password, salt))` under a fresh id greater than every id in use, with nothing else changed. For two truthy fields, 500 holds when the password is not a string or the name cannot be bound (a list, a dict, an integer outside 64 bits). When the password is a string and the name binds to text (a string, or an integer or boolean as its decimal text), 409 holds exactly when that text is taken and 201 exactly when it is free, and the new row carries that text. |
| Api.Login | app.py:89-107 | An authenticated session gets 200 "already logged in" with its own name, whatever the body, and no change. A missing field gets 400. Success means the bound username names an existing user whose non-empty stored hash accepts the password; then the session becomes that user and nothing else changes. Every such user is accepted. Any other complete body gets 401 or 500. The 500 holds exactly when the name cannot be bound, or when the name is found with a non-empty stored hash and the password is not a string (the hashing library raises). With string fields the outcome is 200 or 401 only. |
| Api.Logout | app.py:109-113 | Anonymous: 401, no change. Otherwise the session is cleared, the tables and counters stay, and the answer is 200. |
| Api.Status | app.py:115-118 | Anonymous: 401. Otherwise it reports the session's user id and that user's name. It never changes the state. |
| Api.ListTasks | app.py:122-132 | Anonymous: 401. Otherwise the rows are exactly the caller's tasks, one row per task, with `completada` as 1 or 0. It never changes the state. |
| Api.NewTask | app.py:137-150 | Gets 400 exactly when the description is all whitespace. Otherwise it stores the stripped description, not completed, as a new task of the caller under a fresh id, and echoes it with `completada` false. No other task changes. |
| Api.AddTask | app.py:134-156 | Anonymous: 401. No `descripcion` field: 400. A field that is not a string: 500. A string field: the outcome of `NewTask`. The state changes only on 201. |
| Api.DeleteTask | app.py:158-177 | Anonymous: 401. A path id outside signed 64 bits cannot be bound: 500, no change. For any other id it answers 200 exactly when the task exists and is the caller's, and 404 exactly when it does not, whether it is missing or foreign. On 200 only that task is removed. |
| Api.UpdateTask | app.py:179-203 | Anonymous: 401. A body that decodes to `None` (JSON `null`): 500. A missing or non-boolean `completada`: 400. A boolean with a path id outside signed 64 bits: 500, no change. A boolean on the caller's own task: 200 echoing the flag, with only that task's flag changed. Otherwise 404. |
| Api.Row | app.py:127-131 | A listing row carries the task's id and description, and `completada` is 1 exactly when the task is completed and 0 otherwise. |
| Api.HasCredentials | app.py:95 | The body holds both `usuario` and `contraseña`, the test that registration applies first (app.py:60) and login applies right after its `current_user.is_authenticated` check (app.py:91-95). |
| Api.Request.Protected | app.py:110-181 | The routes behind `@login_required`: every route except registration and login. `Properties.AnonymousIsRejected` proves they all answer an anonymous session with 401. |
| Api.Accepts | app.py:103 | The login test: the user exists, its stored hash is non-empty, and the hashing library accepts the password against it. |
| Api.LoginRaises | app.py:101-103 | When a complete login body raises: the name cannot be bound, or it is found with a non-empty stored hash and the password is not a string. |
| Api.Handle | app.py:56-203 | Routes a request to its handler. The result keeps `Valid`, and any request that changes the state got a success answer. |
| Json.Truthy | app.py:60-66 | Python's truth test on a decoded JSON value: `null`, `false`, 0, the empty string, the empty list and the empty dict are falsy, everything else is truthy. |
| Json.BindText | app.py:73-74 | A value is stored as text exactly when it is a string, an integer within signed 64 bits or a boolean. A string is stored as itself, an integer as its decimal text, and a boolean as `"1"` or `"0"`; truthy values give non-empty text. `None` binds to NULL. Lists, dicts and integers outside signed 64 bits cannot be bound. |
| Json.FitsInt64 | app.py:74 | The signed 64-bit range, the only integers the sqlite3 driver can bind; a username or a path id outside it makes the statement at app.py:74, 165 or 191 raise. |
| Json.Has | app.py:60 | `datos and key in datos`: the body is present and holds the key (a present body holding a key is non-empty). |
| Json.BoundIntsDistinct | app.py:39 | Two integers that bind to the same username text are equal. |
| Store.Valid | database_setup.py:11-30 | The invariant: unique user names, ids below their AUTOINCREMENT counters, existing task owners, non-empty stripped descriptions, and a session naming an existing user. `Api.Handle` proves that every request keeps it. |
| Store.InsertUser | database_setup.py:11-12 | Inserts a user with a free non-empty name under the AUTOINCREMENT id, which is fresh and greater than every id in use. The invariant holds afterwards. |
| Store.InsertTask | database_setup.py:25-29 | Inserts a task under the AUTOINCREMENT id, which is fresh. No other task, no user and not the session changes, and the invariant holds. |
| Store.RemoveTask | app.py:165 | Removes exactly task `t`. Every other task and everything else stay, and the invariant holds. |
| Store.SetCompleted | app.py:189-191 | Changes only the `completada` flag of task `t`. Its description and owner and all other tasks stay, and the invariant holds. |
| Store.WithSession | app.py:104-112 | Sets the session to an existing user or to nobody. The tables and counters stay, and the invariant holds. |
| Store.Init | database_setup.py:37-39 | The fresh database has empty tables and nobody logged in, and satisfies the invariant. |
| Store.NameTaken | app.py:79 | Some user already has the name, so an insert of it violates `usuario TEXT UNIQUE` (database_setup.py:12) and the handler answers 409. |
| Store.OwnedBy | app.py:165 | Task `t` exists and belongs to `u`: the one row `WHERE id = ? AND usuario_id = ?` matches, here and at app.py:191. |
| Store.FindUser | app.py:36-44 | Finds a user exactly when one has that name, and the id found carries that name. |
| Store.CurrentUser | app.py:46-48 | `current_user` is a user that exists and that the session names. In a valid state it is exactly the session's user. |
| Store.InsertThenRemove | app.py:145-167 | Deleting a task just inserted gives back the old task table. |
| Text.IsSpace | app.py:138 | Python's `str.isspace` on ASCII, which `.strip()` removes: space, the controls 9-13 and the separators 0x1C-0x1F. |
| Text.Strip | app.py:138-141 | The result satisfies the reference definition of stripping and has no whitespace at either end. It is empty exactly when the input is all whitespace. |
| Text.StripUnique | app.py:141 | The reference definition determines the stripped string. |
| Text.StripTrimmed | app.py:141 | A string without whitespace at either end strips to itself. |
| Text.StripIdempotent | app.py:141 | Stripping twice is stripping once. |
| Text.StripExample | app.py:141 | `" buy milk "` strips to `"buy milk"`. |
| Text.DecimalText | database_setup.py:12 | The decimal text SQLite stores for an integer bound to a TEXT column: never empty, and it starts with `-` exactly when the integer is negative. |
| Text.ParseNatText | database_setup.py:12 | Reading the decimal text of a natural number back gives that number. |
| Text.NatTextInjective | database_setup.py:12 | Distinct naturals have distinct decimal texts. |
| Text.DecimalTextInjective | database_setup.py:12 | Distinct integers are stored as distinct texts in a TEXT column. |
| Properties.AnonymousIsRejected | app.py:15-17 | Every protected route answers an anonymous session with status 401 and changes nothing. |
| Properties.ValidationFailuresAre400 | app.py:60-184 | A body that fails validation gets status 400. That covers registration without both fields or with an empty password, login without both fields when anonymous, adding without a description or with an all-whitespace one, and updating a present body without a boolean `completada`. |
| Properties.RaisedErrorsAre500 | app.py:137-201 | The exceptions a request's own values raise give status 500 and change nothing. That covers a PUT body of JSON `null`, a `descripcion` that is not a string, and a path id outside 64 bits on delete. |
| Properties.RouteStatusCodes | app.py:56-203 | Each route answers only with its own codes: registration 201, 400, 409 or 500; login 200, 400, 401 or 500; logout, status and listing 200 or 401; adding 201, 400, 401 or 500; deleting 200, 401, 404 or 500; updating 200, 400, 401, 404 or 500. |
| Properties.RouteFrame | app.py:56-203 | Only registration changes users, only the task routes change tasks, and only login and logout change the session. |
| Properties.RegisterTwice | app.py:73-81 | Registering a free name with a non-empty string password gives status 201. Registering the same name again, with any non-empty string password, gives status 409 and changes nothing. |
| Properties.RegisterThenLogin | app.py:69-104 | With a sound hashing library, a newly registered user logs in with the same password, and the session then holds the new id. |
| Properties.LoginDoesNotRevealNames | app.py:100-107 | With string fields, an unknown name and a wrong password for a known name both give the same answer, status 401, with no change. |
| Properties.NumericNameIsItsDecimalText | app.py:39-104 | An integer username within 64 bits binds to the same text as its decimal string, so login with either gives the same outcome, and so does registration for a non-zero integer. |
| Properties.LoginLeaksNamesOnNonStringPassword | app.py:101-107 | With a password that is not a string, an unknown name gets 401 but a registered name with a stored hash gets 500, so the answers tell the two apart. |
| Properties.LoginThenLogout | app.py:102-112 | Logging out after logging in gives back the exact state before the login. |
| Properties.LoginThenStatus | app.py:102-118 | After a successful login, the status endpoint reports the id and the name of the user who logged in, and changes nothing. |
| Properties.LoginWhileAuthenticated | app.py:91-92 | While logged in, every login body gets the same 200 and nothing changes. |
| Properties.ForeignTaskLooksMissing | app.py:127-191 | For ids within signed 64 bits, another user's task is absent from the listing. Deleting it gives status 404, as for a missing id. Updating it gives the same answer as updating a missing id (status 404 for a boolean `completada`), and nothing changes. |
| Properties.AddTaskKeepsOthers | app.py:145-148 | Adding a task leaves the users and every other user's tasks unchanged. |
| Properties.InsertKeepsOthers | app.py:146-147 | Inserting a task of one user leaves another user's tasks unchanged. |
| Properties.DeleteTaskKeepsOthers | app.py:165 | Deleting a task leaves the users and every other user's tasks unchanged. |
| Properties.UpdateTaskKeepsOthers | app.py:189-191 | Updating a task leaves the users and every other user's tasks unchanged. |
| Properties.OwnWritesInvisibleToOthers | app.py:134-203 | Writes to one's own tasks, through the router, never touch the users or another user's tasks. |
| Properties.ListsOwnedUnique | app.py:127-131 | The characterisation `ListsOwned` of a user's listing determines its set of rows. |
| Properties.ListingDependsOnOwnTasks | app.py:127-131 | A user's listing depends only on that user's tasks, so other users' writes leave it as it was. |
| Properties.RowsAfterInsert | app.py:127-147 | Inserting a task of `u` adds exactly its row to `u`'s listing. |
| Properties.AddThenList | app.py:122-156 | A string description with something left after stripping is added as its stripped text. The listing is then the old listing plus the new row, not completed (0). |
| Properties.AddThenDelete | app.py:134-177 | While the next id fits in signed 64 bits, a task just added can be deleted with 200, which gives back the old task table. |
| Properties.DeleteTwice | app.py:165-172 | After a successful delete, deleting the same id again gives status 404 and changes nothing. |
| Properties.UpdateIdempotent | app.py:179-203 | Repeating an update with the same body gives the same response and leaves the state it left. |
| Properties.AddTaskStoresStripped | app.py:137-150 | A string description with something left after stripping gets 201. It is stored and echoed as its stripped text, not completed, and the task table gains exactly that task. |
| Properties.AddTaskStripsDescription | app.py:137-150 | Adding `" buy milk "` stores and echoes `"buy milk"`, not completed. |
| Properties.RegisterAlice | app.py:56-78 | On a fresh database, registering alice gives 201 with id 1 and a one-user table. |
| Properties.LoginAlice | app.py:89-104 | alice logs in with the password her hash accepts, and the session holds id 1. |
| Properties.AddReport | app.py:134-150 | alice's first task "write report" gets id 1 and is not completed. |
| Properties.MarkReportDone | app.py:179-195 | Marking task 1 done answers 200 with `completada` true and sets only that flag. |
| Properties.ListReportDone | app.py:122-132 | The listing then holds the one row (1, "write report", 1). |
| Properties.DeleteReport | app.py:158-170 | Deleting task 1 answers 200 and empties alice's tasks. |
| Properties.LogoutAlice | app.py:109-132 | The empty listing, then logout, then the listing is refused with 401. |
| Properties.AliceSession | app.py:56-203 | A complete session on a fresh database, each step with its exact state and response. It registers, logs in, adds, completes, lists, deletes, lists again and logs out, and the final listing gets 401. |

## Where the code departs from its evident intent

The model follows the code.

- The listing returns `completada` as the integer 0 or 1 that SQLite stores,
  not as a JSON boolean (`TaskRow.completed` is an `int`). The add and update
  responses echo a real boolean.
- PUT `/api/tareas/<id>` with a body that decodes to `None` (JSON `null`)
  raises a `TypeError` at `'completada' not in datos`, so the answer
  is 500. The message at app.py:184 ("the field 'completada' (boolean) is
  required") shows that a 400 was meant; a body without the field does get
  400.
- A username that is a JSON integer or boolean is accepted and stored as
  decimal text (`true` becomes `"1"`). Logging in with the integer or with the
  string then reaches the same user (`Properties.NumericNameIsItsDecimalText`).
- A `descripcion` that is not a string makes `.strip()` raise, which gives
  500, not the 400 of app.py:139.
- Login with a password that is not a string leaks which names exist. An
  unknown name fails `user_obj and stored_password_hash` and gets 401.
  A registered name reaches `check_password_hash`, which raises on the
  non-string, and Flask answers 500
  (`Properties.LoginLeaksNamesOnNonStringPassword`). With string fields both
  get the same 401 (`Properties.LoginDoesNotRevealNames`).

## Left out

- Database failures such as connection errors, locking and a full disk, and
  the `except Exception` branches they reach. Only the exceptions that the
  request's own values cause are modelled as 500: a value that cannot be
  bound, `.strip()` or hashing on a non-string, and a PUT body of JSON `null`.
- The hashing scheme's internals (werkzeug's `generate_password_hash` and
  `check_password_hash`). They are the abstract `PasswordScheme`, and the
  random salt is a parameter.
- flask_login's internals: the signed cookie, `remember=True`, the secret
  key and the session's lifetime. The session is the user id it carries.
  `load_user` is `Store.CurrentUser`, which is the session's user because
  users are never deleted.
- The texts of the JSON messages. Each rejection is named by a
  `Problem` or a `Response` constructor, and success messages are implied by
  the constructor.
- Bodies that are not JSON. `request.get_json()` raises on them (400 or
  415) inside the handler, at app.py:58, 94, 137 and 182. That is after the
  `@login_required` gate, so an anonymous client still gets 401, and after
  the `is_authenticated` test at app.py:91, so a logged-in client still gets
  200 from login. Path ids that are not integers get 404 from routing. A
  top-level JSON value that is not an object, other than `null`, is not
  modelled either: a body is either `None` or an object.
- The `print(...)` of each `except` branch (app.py:84, 153, 174, 200),
  which writes the error to the server log and does not affect the
  response.
- JSON floats, and the contents of nested arrays and objects: only their
  emptiness matters to the handlers.
- Text.Strip: removes ASCII whitespace only. Python's `str.strip()` also
  removes the Unicode spaces (U+0085, U+00A0, U+2000..U+200A, U+3000 and
  others).
- SQLite's 64-bit limits are modelled where a request value meets them. A
  username integer, or a path id at app.py:165 or 191, outside signed 64 bits
  cannot be bound and gives 500. The AUTOINCREMENT counters, though, are
  unbounded naturals, so the "database full" error at the largest id is not
  modelled.
- Strings holding lone surrogates, which JSON can carry and which make the
  driver raise `UnicodeEncodeError` (a 500), are not modelled: Dafny's
  `string` cannot hold them.
- `cli.py` is not part of this model. Neither are the execution of the table
  DDL in `database_setup.py` (modelled only as `Store.Init` and the invariant)
  or the server start-up.
- The order of the listing: SQL gives the rows in no promised order, so the
  listing is the set of rows. Ids are distinct, so no row appears twice.
- Concurrent requests: each request is one atomic step.

=== FILE: api.dfy ===
/**
 The JSON endpoints of the task-list service. Each handler is a function from
 the current state and the request's inputs to the next state and the
 response; a protected handler first passes the login gate, which answers
 401 to an anonymous session.
 */
module Api {
  import opened Wrappers
  import opened Text
  import opened Json
  import opened Store

  const UserKey := "usuario"
  const PasswordKey := "contraseña"
  const DescriptionKey := "descripcion"
  const CompletedKey := "completada"

  /** Why a request was rejected with 400. */
  datatype Problem =
    | MissingCredentials     // "Faltan datos de usuario o contraseña"
    | EmptyCredentials       // "Usuario y contraseña no pueden estar vacíos"
    | DescriptionRequired    // "La descripción de la tarea es requerida"
    | CompletedFlagRequired  // "Se requiere el campo 'completada' (booleano)"

  /** A row of the task listing. SQLite has no boolean type, so the listing
      reports `completada` as the integer 0 or 1. */
  datatype TaskRow = TaskRow(id: TaskId, description: string, completed: int)

  datatype Response =
    | Registered(userId: UserId)
    | LoggedIn(username: string)
    | AlreadyLoggedIn(username: string)
    | LoggedOut
    | StatusInfo(userId: UserId, username: string)
    | TaskList(rows: set<TaskRow>)
    | TaskAdded(taskId: TaskId, description: string, completed: bool)
    | TaskDeleted
    | TaskUpdated(taskId: TaskId, completed: bool)
    | BadRequest(problem: Problem)
    | Unauthorized          // the login gate
    | InvalidCredentials    // a failed login
    | NotFound              // no such task among the caller's own
    | Conflict              // the username is taken
    | ServerError           // an exception escaped the handler
  {
    /** The outcomes the client sees as failures. */
    predicate IsError() {
      BadRequest? || Unauthorized? || InvalidCredentials? || NotFound? || Conflict? || ServerError?
    }

    /** The HTTP status code sent with the response: the failures are
        exactly the 4xx and 5xx answers, and each failure has its own code
        except the two 401s (the login gate and a failed login). */
    function Code(): (c: int)
      ensures c in {200, 201, 400, 401, 404, 409, 500}
      ensures IsError() <==> c >= 400
      ensures Registered? || TaskAdded? <==> c == 201
      ensures BadRequest? <==> c == 400
      ensures Unauthorized? || InvalidCredentials? <==> c == 401
      ensures NotFound? <==> c == 404
      ensures Conflict? <==> c == 409
      ensures ServerError? <==> c == 500
    {
      match this
      case Registered(_) => 201
      case TaskAdded(_, _, _) => 201
      case BadRequest(_) => 400
      case Unauthorized => 401
      case InvalidCredentials => 401
      case NotFound => 404
      case Conflict => 409
      case ServerError => 500
      case _ => 200
    }
  }

  /** The state after a request and the response sent for it. */
  datatype Step = Step(next: State, response: Response)

  /** How a stored task appears in the listing. */
  function Row(t: TaskId, task: Task): (r: TaskRow)
    ensures r.id == t && r.description == task.description
    ensures r.completed == 0 || r.completed == 1
    ensures r.completed == 1 <==> task.completed
  {
    TaskRow(t, task.description, if task.completed then 1 else 0)
  }

  /** The body holds both `usuario` and `contraseña`. */
  predicate HasCredentials(body: Body) {
    Has(body, UserKey) && Has(body, PasswordKey)
  }

  /** The body the command-line client sends to /registro and /login. */
  function Credentials(name: string, password: string): (body: Body)
    ensures HasCredentials(body)
    ensures Field(body, UserKey) == Str(name) && Field(body, PasswordKey) == Str(password)
  {
    Some(map[UserKey := Str(name), PasswordKey := Str(password)])
  }

  /** The stored credential of user `u` is present and accepts `password`
      (`stored_password_hash and check_password_hash(...)`). */
  predicate Accepts(s: State, scheme: PasswordScheme, u: UserId, password: string) {
    u in s.users && s.users[u].credential != [] && scheme.matches(s.users[u].credential, password)
  }

  // -----------------------------------------------------------------------
  // Authentication endpoints

  /** POST /api/registro. */
  function Register(s: State, body: Body, salt: string, scheme: PasswordScheme): (out: Step)
    requires Valid(s)
    // The state changes only on success.
    ensures out.next != s ==> out.response.Registered?
    ensures Valid(out.next)
    ensures out.response.Registered? || out.response.BadRequest? || out.response.Conflict? || out.response.ServerError?
    ensures !HasCredentials(body) ==> out.response == BadRequest(MissingCredentials)
    ensures HasCredentials(body) && (!Truthy(Field(body, UserKey)) || !Truthy(Field(body, PasswordKey))) ==>
      out.response == BadRequest(EmptyCredentials)
    // A new user gets a fresh id and a name nobody had; nothing else changes.
    ensures out.response.Registered? ==>
      && out.response.userId in out.next.users
      && UserInserted(s, out.next, out.response.userId, out.next.users[out.response.userId])
      && !NameTaken(s.users, out.next.users[out.response.userId].name)
    // Both fields truthy: a password that is not a string cannot be hashed,
    // and a name the driver cannot bind fails the insert; either way 500.
    ensures (&& HasCredentials(body) && Truthy(Field(body, UserKey)) && Truthy(Field(body, PasswordKey))
             && (!Field(body, PasswordKey).Str? || BindText(Field(body, UserKey)).Unbindable?)) ==>
      out == Step(s, ServerError)
    // Otherwise the name is stored as the text it binds to (a string as
    // itself, a number or a boolean as its decimal text).
    ensures (&& HasCredentials(body) && Truthy(Field(body, UserKey)) && Truthy(Field(body, PasswordKey))
             && Field(body, PasswordKey).Str? && BindText(Field(body, UserKey)).BoundText?) ==>
        var name := BindText(Field(body, UserKey)).text;
        && (out == Step(s, Conflict) <==> NameTaken(s.users, name))
        && (out.response.Registered? <==> !NameTaken(s.users, name))
        && (out.response.Registered? ==>
              out.next.users[out.response.userId] == User(name, scheme.hash(Field(body, PasswordKey).s, salt)))
  {
    if !HasCredentials(body) then
      Step(s, BadRequest(MissingCredentials))
    else
      var user, password := Field(body, UserKey), Field(body, PasswordKey);
      if !Truthy(user) || !Truthy(password) then
        Step(s, BadRequest(EmptyCredentials))
      else if !password.Str? then
        // hashing a value that is not a string raises before the insert
        Step(s, ServerError)
      else
        match BindText(user)
        case BoundText(name) =>
          if NameTaken(s.users, name) then
            // the UNIQUE constraint fails and the insert is rolled back
            Step(s, Conflict)
          else
            Step(InsertUser(s, User(name, scheme.hash(password.s, salt))), Registered(s.nextUserId))
        case _ =>
          // a list or dict cannot be bound; the generic handler answers 500
          Step(s, ServerError)
  }

  /** The login attempt raises instead of answering: the username cannot be
      bound, or it names a user with a stored credential and the password is
      not a string, which `check_password_hash` cannot take. */
  ghost predicate LoginRaises(s: State, body: Body)
    requires HasCredentials(body)
  {
    match BindText(Field(body, UserKey))
    case Unbindable => true
    case BoundNull => false
    case BoundText(name) =>
      && !Field(body, PasswordKey).Str?
      && exists u :: u in s.users && s.users[u].name == name && s.users[u].credential != []
  }

  /** POST /api/login. */
  function Login(s: State, body: Body, scheme: PasswordScheme): (out: Step)
    requires Valid(s)
    // The state changes only on success.
    ensures out.next != s ==> out.response.LoggedIn?
    ensures Valid(out.next)
    // An authenticated session is answered at once, without reading the body.
    ensures CurrentUser(s).Some? ==> out == Step(s, AlreadyLoggedIn(s.users[CurrentUser(s).value].name))
    ensures CurrentUser(s).None? && !HasCredentials(body) ==> out == Step(s, BadRequest(MissingCredentials))
    // Success only for an existing user whose credential accepts the password.
    ensures out.response.LoggedIn? ==>
      && CurrentUser(s).None? && HasCredentials(body) && Field(body, PasswordKey).Str?
      && out.next.session.Some?
      && out.next == s.(session := out.next.session)
      && var u := out.next.session.value;
         && u in s.users
         && out.response.username == s.users[u].name
         && BindText(Field(body, UserKey)) == BoundText(s.users[u].name)
         && Accepts(s, scheme, u, Field(body, PasswordKey).s)
    ensures (&& CurrentUser(s).None? && HasCredentials(body) && Field(body, PasswordKey).Str?
             && exists u :: u in s.users && BindText(Field(body, UserKey)) == BoundText(s.users[u].name)
                            && Accepts(s, scheme, u, Field(body, PasswordKey).s)) ==>
        out.response.LoggedIn?
    // Every other outcome of a complete body is a 401 (or a 500 for values
    // the driver or the hashing library cannot take).
    ensures CurrentUser(s).None? && HasCredentials(body) ==>
      out.response.LoggedIn? || out.response == InvalidCredentials || out.response == ServerError
    ensures CurrentUser(s).None? && HasCredentials(body) ==>
      (out.response == ServerError <==> LoginRaises(s, body))
    ensures CurrentUser(s).None? && HasCredentials(body) && Field(body, UserKey).Str? && Field(body, PasswordKey).Str? ==>
      out.response.LoggedIn? || out.response == InvalidCredentials
  {
    match CurrentUser(s)
    case Some(u) => Step(s, AlreadyLoggedIn(s.users[u].name))
    case None =>
      if !HasCredentials(body) then
        Step(s, BadRequest(MissingCredentials))
      else
        var user, password := Field(body, UserKey), Field(body, PasswordKey);
        match BindText(user)
        case Unbindable => Step(s, ServerError)
        case BoundNull => Step(s, InvalidCredentials)
        case BoundText(name) =>
          match FindUser(s.users, name)
          case None => Step(s, InvalidCredentials)
          case Some(u) =>
            if s.users[u].credential == [] then
              Step(s, InvalidCredentials)
            else if !password.Str? then
              // checking a password that is not a string raises
              Step(s, ServerError)
            else if scheme.matches(s.users[u].credential, password.s) then
              Step(WithSession(s, Some(u)), LoggedIn(s.users[u].name))
            else
              Step(s, InvalidCredentials)
  }

  /** POST /api/logout. */
  function Logout(s: State): (out: Step)
    requires Valid(s)
    ensures Valid(out.next)
    ensures CurrentUser(s).None? ==> out == Step(s, Unauthorized)
    ensures CurrentUser(s).Some? ==>
      && out.response == LoggedOut
      && CurrentUser(out.next).None?
      && out.next.users == s.users && out.next.tasks == s.tasks
      && out.next.nextUserId == s.nextUserId && out.next.nextTaskId == s.nextTaskId
  {
    match CurrentUser(s)
    case None => Step(s, Unauthorized)
    case Some(_) => Step(WithSession(s, None), LoggedOut)
  }

  /** GET /api/status. */
  function Status(s: State): (out: Step)
    requires Valid(s)
    ensures out.next == s
    ensures CurrentUser(s).None? ==> out.response == Unauthorized
    ensures CurrentUser(s).Some? ==>
      && out.response.StatusInfo?
      && s.session == Some(out.response.userId)
      && out.response.userId in s.users
      && s.users[out.response.userId].name == out.response.username
  {
    match CurrentUser(s)
    case None => Step(s, Unauthorized)
    case Some(u) => Step(s, StatusInfo(u, s.users[u].name))
  }

  // -----------------------------------------------------------------------
  // Task endpoints

  /** `rows` holds exactly one row per task of user `u`, each as listed. */
  ghost predicate ListsOwned(s: State, u: UserId, rows: set<TaskRow>) {
    && (forall row :: row in rows ==> OwnedBy(s, row.id, u) && row == Row(row.id, s.tasks[row.id]))
    && (forall t :: OwnedBy(s, t, u) ==> Row(t, s.tasks[t]) in rows)
  }

  /** GET /api/tareas: exactly the caller's tasks. */
  function ListTasks(s: State): (out: Step)
    requires Valid(s)
    ensures out.next == s
    ensures CurrentUser(s).None? ==> out.response == Unauthorized
    ensures CurrentUser(s).Some? ==>
      out.response.TaskList? && ListsOwned(s, CurrentUser(s).value, out.response.rows)
  {
    match CurrentUser(s)
    case None => Step(s, Unauthorized)
    case Some(u) => Step(s, TaskList(set t | t in s.tasks && s.tasks[t].owner == u :: Row(t, s.tasks[t])))
  }

  /** The part of POST /api/tareas after the gate and the field checks:
      store the stripped description `text` as a new task of user `u`,
      unless nothing is left of it. */
  function NewTask(s: State, u: UserId, text: string): (out: Step)
    requires Valid(s) && u in s.users
    // The state changes only on success.
    ensures out.next != s ==> out.response.TaskAdded?
    ensures Valid(out.next)
    ensures out.response.TaskAdded? || out.response == BadRequest(DescriptionRequired)
    ensures out.response == BadRequest(DescriptionRequired) <==> AllSpace(text)
    ensures out.response.TaskAdded? ==>
      var d := out.response.description;
      && IsStripOf(text, d) && d != [] && Trimmed(d)
      && !out.response.completed
      && out.response.taskId == s.nextTaskId
      && TaskInserted(s, out.next, out.response.taskId, Task(d, false, u))
  {
    var d := Strip(text);
    if d == [] then
      Step(s, BadRequest(DescriptionRequired))
    else
      Step(InsertTask(s, Task(d, false, u)), TaskAdded(s.nextTaskId, d, false))
  }

  /** POST /api/tareas. */
  function AddTask(s: State, body: Body): (out: Step)
    requires Valid(s)
    // The state changes only on success.
    ensures out.next != s ==> out.response.TaskAdded?
    ensures Valid(out.next)
    ensures out.response.TaskAdded? || out.response.IsError()
    ensures CurrentUser(s).None? ==> out.response == Unauthorized
    ensures CurrentUser(s).Some? && !Has(body, DescriptionKey) ==> out.response == BadRequest(DescriptionRequired)
    ensures CurrentUser(s).Some? && Has(body, DescriptionKey) && !Field(body, DescriptionKey).Str? ==>
      out.response == ServerError
    ensures CurrentUser(s).Some? && Has(body, DescriptionKey) && Field(body, DescriptionKey).Str? ==>
      out == NewTask(s, CurrentUser(s).value, Field(body, DescriptionKey).s)
  {
    match CurrentUser(s)
    case None => Step(s, Unauthorized)
    case Some(u) =>
      if !Has(body, DescriptionKey) then
        Step(s, BadRequest(DescriptionRequired))
      else
        match Field(body, DescriptionKey)
        case Str(text) => NewTask(s, u, text)
        case _ =>
          // `.strip()` on a value that is not a string raises
          Step(s, ServerError)
  }

  /** DELETE /api/tareas/<id>: removes the caller's own task `t`; a task of
      another user is indistinguishable from a missing one. */
  function DeleteTask(s: State, t: TaskId): (out: Step)
    requires Valid(s)
    // The state changes only on success.
    ensures out.next != s ==> out.response.TaskDeleted?
    ensures Valid(out.next)
    ensures CurrentUser(s).None? ==> out.response == Unauthorized
    // An id SQLite cannot bind raises inside the handler's `try`: 500.
    ensures CurrentUser(s).Some? && !FitsInt64(t) ==> out == Step(s, ServerError)
    ensures CurrentUser(s).Some? && FitsInt64(t) ==>
      && (out.response == TaskDeleted <==> OwnedBy(s, t, CurrentUser(s).value))
      && (out.response == NotFound <==> !OwnedBy(s, t, CurrentUser(s).value))
    ensures out.response == TaskDeleted ==> TaskRemoved(s, out.next, t)
  {
    match CurrentUser(s)
    case None => Step(s, Unauthorized)
    case Some(u) =>
      if !FitsInt64(t) then
        Step(s, ServerError)
      else if OwnedBy(s, t, u) then
        Step(RemoveTask(s, t), TaskDeleted)
      else
        Step(s, NotFound)
  }

  /** PUT /api/tareas/<id>: sets `completed` on the caller's own task `t`. */
  function UpdateTask(s: State, t: TaskId, body: Body): (out: Step)
    requires Valid(s)
    // The state changes only on success.
    ensures out.next != s ==> out.response.TaskUpdated?
    ensures Valid(out.next)
    ensures CurrentUser(s).None? ==> out.response == Unauthorized
    // A body that decodes to `None` (JSON `null`) makes `'completada' not in
    // datos` raise.
    ensures CurrentUser(s).Some? && body.None? ==> out.response == ServerError
    ensures CurrentUser(s).Some? && body.Some? && (!Has(body, CompletedKey) || !Field(body, CompletedKey).Bool?) ==>
      out.response == BadRequest(CompletedFlagRequired)
    ensures CurrentUser(s).Some? && Has(body, CompletedKey) && Field(body, CompletedKey).Bool? ==>
      && (!FitsInt64(t) ==> out == Step(s, ServerError))
      && (FitsInt64(t) && OwnedBy(s, t, CurrentUser(s).value) ==> out.response == TaskUpdated(t, Field(body, CompletedKey).b))
      && (FitsInt64(t) && !OwnedBy(s, t, CurrentUser(s).value) ==> out.response == NotFound)
    // Only the flag of task t changes.
    ensures out.response.TaskUpdated? ==> CompletedSet(s, out.next, t, out.response.completed)
  {
    match CurrentUser(s)
    case None => Step(s, Unauthorized)
    case Some(u) =>
      if body.None? then
        Step(s, ServerError)
      else if !Has(body, CompletedKey) || !Field(body, CompletedKey).Bool? then
        Step(s, BadRequest(CompletedFlagRequired))
      else
        var done := Field(body, CompletedKey).b;
        if !FitsInt64(t) then
          // an id SQLite cannot bind raises inside the handler's `try`
          Step(s, ServerError)
        else if OwnedBy(s, t, u) then
          Step(SetCompleted(s, t, done), TaskUpdated(t, done))
        else
          Step(s, NotFound)
  }

  // -----------------------------------------------------------------------
  // Routing

  /** A request as the router sees it: the route, its path parameter and
      its decoded body. Registration also carries the random salt the
      hashing library draws. */
  datatype Request =
    | PostRegistro(body: Body, salt: string)
    | PostLogin(body: Body)
    | PostLogout
    | GetStatus
    | GetTareas
    | PostTarea(body: Body)
    | DeleteTarea(id: TaskId)
    | PutTarea(id: TaskId, body: Body)
  {
    /** The routes behind `@login_required`. */
    predicate Protected() {
      !PostRegistro? && !PostLogin?
    }
  }

  /** Dispatches a request to its handler. */
  function Handle(s: State, req: Request, scheme: PasswordScheme): (out: Step)
    requires Valid(s)
    ensures Valid(out.next)
    // A request that changes the database or the session succeeded.
    ensures out.next != s ==> !out.response.IsError()
  {
    match req
    case PostRegistro(body, salt) => Register(s, body, salt, scheme)
    case PostLogin(body) => Login(s, body, scheme)
    case PostLogout => Logout(s)
    case GetStatus => Status(s)
    case GetTareas => ListTasks(s)
    case PostTarea(body) => AddTask(s, body)
    case DeleteTarea(id) => DeleteTask(s, id)
    case PutTarea(id, body) => UpdateTask(s, id, body)
  }
}

=== FILE: json.dfy ===
/**
 The JSON request bodies the endpoints read, the Python truthiness tests the
 handlers apply to their fields, and the conversion SQLite applies to a value
 bound to a TEXT column.
 */
module Json {
  import opened Wrappers
  import opened Text

  /** A JSON value as Python's `json` module decodes it. Arrays and objects
      nested inside a field only ever matter through their emptiness, so they are
      represented by their size. */
  datatype Json =
    | Null
    | Bool(b: bool)
    | Int(n: int)
    | Str(s: string)
    | Array(length: nat)
    | Object(size: nat)

  /** The decoded request body: `None` when `request.get_json()` gives
      `None` (a JSON `null` body), otherwise the top-level object's fields. */
  type Body = Option<map<string, Json>>

  /** Python's truth value of a decoded JSON value (`not v` is its negation). */
  predicate Truthy(v: Json) {
    match v
    case Null => false
    case Bool(b) => b
    case Int(n) => n != 0
    case Str(s) => s != []
    case Array(length) => length > 0
    case Object(size) => size > 0
  }

  /** `datos and key in datos`: the body is present, non-empty and has `key`.
      (A present body holding the key is non-empty, so one test covers both.) */
  predicate Has(body: Body, key: string) {
    body.Some? && key in body.value
  }

  /** The value of field `key`, which the body must hold. */
  function Field(body: Body, key: string): Json
    requires Has(body, key)
  {
    body.value[key]
  }

  /** What SQLite receives when a decoded value is bound as a query
      parameter compared with or stored in a TEXT column. */
  datatype Bound =
    | BoundText(text: string)  // stored or compared as this text
    | BoundNull                // SQL NULL, equal to nothing
    | Unbindable               // the driver raises: lists and dicts have no SQL type

  /** The range of SQLite's 64-bit signed INTEGER, the only integers the
      sqlite3 driver can bind; a larger one raises `OverflowError`. */
  predicate FitsInt64(n: int) {
    -0x8000_0000_0000_0000 <= n < 0x8000_0000_0000_0000
  }

  /** Python's sqlite3 binds `str` as text, `int` (within 64 bits) and `bool`
      as integers, which a TEXT column turns into their decimal text, and
      `None` as NULL; a list, a dict or a wider integer cannot be bound. */
  function BindText(v: Json): (r: Bound)
    ensures r.BoundText? <==> v.Str? || (v.Int? && FitsInt64(v.n)) || v.Bool?
    ensures v.Str? ==> r == BoundText(v.s)
    ensures v.Int? && FitsInt64(v.n) ==> r == BoundText(DecimalText(v.n))
    ensures v.Bool? ==> r == BoundText(DecimalText(if v.b then 1 else 0))
    ensures r.BoundNull? <==> v.Null?
    ensures r.Unbindable? <==> v.Array? || v.Object? || (v.Int? && !FitsInt64(v.n))
    ensures r.BoundText? && Truthy(v) ==> r.text != []
  {
    match v
    case Null => BoundNull
    case Bool(b) => BoundText(if b then "1" else "0")
    case Int(n) => if FitsInt64(n) then BoundText(DecimalText(n)) else Unbindable
    case Str(s) => BoundText(s)
    case Array(_) => Unbindable
    case Object(_) => Unbindable
  }

  /** Distinct integers never bind to the same text, so a numeric username
      names one user only. */
  lemma BoundIntsDistinct(m: int, n: int)
    requires BindText(Int(m)).BoundText? && BindText(Int(m)) == BindText(Int(n))
    ensures m == n
  {
    DecimalTextInjective(m, n);
  }
}

=== FILE: properties.dfy ===
/**
 Properties of the API that relate several requests or several inputs:
 the login gate, isolation between users, resistance to username
 enumeration, round trips between operations, idempotence of the flag
 update, and one complete session from registration to logout.
 */
module Properties {
  import opened Wrappers
  import opened Text
  import opened Json
  import opened Store
  import opened Api

  // -----------------------------------------------------------------------
  // The login gate and the frame of each route

  /** Every protected route answers an anonymous session with the uniform
      401 and changes nothing. */
  lemma AnonymousIsRejected(s: State, req: Request, scheme: PasswordScheme)
    requires Valid(s) && s.session.None? && req.Protected()
    ensures Handle(s, req, scheme) == Step(s, Unauthorized)
    ensures Handle(s, req, scheme).response.Code() == 401
  {
  }

  /** The status codes each route can answer with. */
  function RouteCodes(req: Request): set<int> {
    match req
    case PostRegistro(_, _) => {201, 400, 409, 500}
    case PostLogin(_) => {200, 400, 401, 500}
    case PostLogout => {200, 401}
    case GetStatus => {200, 401}
    case GetTareas => {200, 401}
    case PostTarea(_) => {201, 400, 401, 500}
    case DeleteTarea(_) => {200, 401, 404, 500}
    case PutTarea(_, _) => {200, 400, 401, 404, 500}
  }

  /** Every answer carries one of the status codes its route can produce. */
  lemma RouteStatusCodes(s: State, req: Request, scheme: PasswordScheme)
    requires Valid(s)
    ensures Handle(s, req, scheme).response.Code() in RouteCodes(req)
  {
  }

  /** Incomplete or ill-typed bodies are refused with 400 by every route
      that validates its body. */
  lemma ValidationFailuresAre400(s: State, body: Body, salt: string, t: TaskId, scheme: PasswordScheme)
    requires Valid(s)
    ensures !HasCredentials(body) ==> Register(s, body, salt, scheme).response.Code() == 400
    ensures HasCredentials(body) && !Truthy(Field(body, PasswordKey)) ==> Register(s, body, salt, scheme).response.Code() == 400
    ensures s.session.None? && !HasCredentials(body) ==> Login(s, body, scheme).response.Code() == 400
    ensures s.session.Some? && !Has(body, DescriptionKey) ==> AddTask(s, body).response.Code() == 400
    ensures s.session.Some? && Has(body, DescriptionKey) && Field(body, DescriptionKey).Str? && AllSpace(Field(body, DescriptionKey).s) ==>
      AddTask(s, body).response.Code() == 400
    ensures s.session.Some? && body.Some? && (!Has(body, CompletedKey) || !Field(body, CompletedKey).Bool?) ==>
      UpdateTask(s, t, body).response.Code() == 400
  {
  }

  /** The exceptions a request's own values raise inside a handler are
      answered with 500, and the state stays as it was. */
  lemma RaisedErrorsAre500(s: State, body: Body, t: TaskId)
    requires Valid(s) && s.session.Some?
    ensures body.None? ==> UpdateTask(s, t, body) == Step(s, ServerError) && UpdateTask(s, t, body).response.Code() == 500
    ensures Has(body, DescriptionKey) && !Field(body, DescriptionKey).Str? ==>
      AddTask(s, body) == Step(s, ServerError) && AddTask(s, body).response.Code() == 500
    ensures !FitsInt64(t) ==> DeleteTask(s, t) == Step(s, ServerError) && DeleteTask(s, t).response.Code() == 500
  {
  }

  /** Only registration touches the user table, only the task routes touch
      the task table, and only login and logout touch the session. */
  lemma RouteFrame(s: State, req: Request, scheme: PasswordScheme)
    requires Valid(s)
    ensures !req.PostRegistro? ==> Handle(s, req, scheme).next.users == s.users
    ensures !req.PostTarea? && !req.DeleteTarea? && !req.PutTarea? ==> Handle(s, req, scheme).next.tasks == s.tasks
    ensures !req.PostLogin? && !req.PostLogout? ==> Handle(s, req, scheme).next.session == s.session
  {
  }

  // -----------------------------------------------------------------------
  // Registration and login

  /** Registering the same name twice gives 201 and then 409, and the
      second attempt changes nothing. */
  lemma RegisterTwice(s: State, name: string, p1: string, p2: string, salt1: string, salt2: string, scheme: PasswordScheme)
    requires Valid(s) && name != [] && p1 != [] && p2 != [] && !NameTaken(s.users, name)
    ensures var first := Register(s, Credentials(name, p1), salt1, scheme);
      && first.response.Registered?
      && first.response.Code() == 201
      && Register(first.next, Credentials(name, p2), salt2, scheme) == Step(first.next, Conflict)
      && Register(first.next, Credentials(name, p2), salt2, scheme).response.Code() == 409
  {
    var first := Register(s, Credentials(name, p1), salt1, scheme);
    assert first.next.users[first.response.userId].name == name;
    assert NameTaken(first.next.users, name);
  }

  /** A user who registered can log in with the same password, and the
      session then belongs to the new id. */
  lemma RegisterThenLogin(s: State, name: string, password: string, salt: string, scheme: PasswordScheme)
    requires Valid(s) && Sound(scheme) && s.session.None?
    requires name != [] && password != [] && !NameTaken(s.users, name)
    ensures var reg := Register(s, Credentials(name, password), salt, scheme);
      && reg.response.Registered?
      && var login := Login(reg.next, Credentials(name, password), scheme);
         && login.response == LoggedIn(name)
         && login.next.session == Some(reg.response.userId)
         && login.next.users == reg.next.users && login.next.tasks == reg.next.tasks
  {
    var reg := Register(s, Credentials(name, password), salt, scheme);
    var id := reg.response.userId;
    var stored := scheme.hash(password, salt);
    assert reg.next.users[id] == User(name, stored);
    assert stored != [] && scheme.matches(stored, password);
    assert Accepts(reg.next, scheme, id, password);
    var login := Login(reg.next, Credentials(name, password), scheme);
    assert login.response.LoggedIn?;
    var u := login.next.session.value;
    assert reg.next.users[u].name == name;
  }

  /** An unknown username and a wrong password for a known one give the
      same 401 and leave the state alone: the response does not reveal
      which names are registered. */
  lemma LoginDoesNotRevealNames(s: State, scheme: PasswordScheme, unknown: string, p1: string, u: UserId, p2: string)
    requires Valid(s) && s.session.None?
    requires !NameTaken(s.users, unknown)
    requires u in s.users && !scheme.matches(s.users[u].credential, p2)
    ensures Login(s, Credentials(unknown, p1), scheme) == Step(s, InvalidCredentials)
    ensures Login(s, Credentials(s.users[u].name, p2), scheme) == Step(s, InvalidCredentials)
    ensures Login(s, Credentials(unknown, p1), scheme).response.Code() == 401
  {
  }

  /** A password that is not a string does separate the names: an unknown
      name is refused with 401 before the password is looked at, while a
      registered name with a stored hash reaches the hashing library, which
      raises on it, so the answer is a 500. */
  lemma LoginLeaksNamesOnNonStringPassword(s: State, scheme: PasswordScheme, unknown: string, u: UserId, pw: Json)
    requires Valid(s) && s.session.None?
    requires !NameTaken(s.users, unknown)
    requires u in s.users && s.users[u].credential != []
    requires !pw.Str?
    ensures Login(s, Some(map[UserKey := Str(unknown), PasswordKey := pw]), scheme) == Step(s, InvalidCredentials)
    ensures Login(s, Some(map[UserKey := Str(s.users[u].name), PasswordKey := pw]), scheme) == Step(s, ServerError)
  {
    var known: Body := Some(map[UserKey := Str(s.users[u].name), PasswordKey := pw]);
    assert HasCredentials(known) && LoginRaises(s, known);
  }

  /** A username given as a JSON integer binds to the same text as its
      decimal string, so logging in with either reaches the same user, and
      registering either (when it is non-zero, hence truthy both ways) has
      the same outcome. */
  lemma NumericNameIsItsDecimalText(s: State, scheme: PasswordScheme, salt: string, n: int, pw: Json)
    requires Valid(s) && FitsInt64(n)
    ensures BindText(Int(n)) == BindText(Str(DecimalText(n)))
    ensures Login(s, Some(map[UserKey := Int(n), PasswordKey := pw]), scheme)
         == Login(s, Some(map[UserKey := Str(DecimalText(n)), PasswordKey := pw]), scheme)
    ensures n != 0 ==>
      Register(s, Some(map[UserKey := Int(n), PasswordKey := pw]), salt, scheme)
      == Register(s, Some(map[UserKey := Str(DecimalText(n)), PasswordKey := pw]), salt, scheme)
  {
    var asInt: Body := Some(map[UserKey := Int(n), PasswordKey := pw]);
    var asText: Body := Some(map[UserKey := Str(DecimalText(n)), PasswordKey := pw]);
    assert HasCredentials(asInt) && HasCredentials(asText);
    assert Field(asInt, PasswordKey) == Field(asText, PasswordKey) == pw;
    assert BindText(Field(asInt, UserKey)) == BindText(Field(asText, UserKey));
  }

  /** Logging out undoes logging in: the state is back where it was. */
  lemma LoginThenLogout(s: State, body: Body, scheme: PasswordScheme)
    requires Valid(s) && s.session.None?
    requires Login(s, body, scheme).response.LoggedIn?
    ensures Logout(Login(s, body, scheme).next) == Step(s, LoggedOut)
  {
  }

  /** After a login, the status endpoint reports the user who logged in. */
  lemma LoginThenStatus(s: State, body: Body, scheme: PasswordScheme)
    requires Valid(s) && s.session.None?
    requires Login(s, body, scheme).response.LoggedIn?
    ensures var login := Login(s, body, scheme);
      Status(login.next) == Step(login.next, StatusInfo(login.next.session.value, login.response.username))
  {
  }

  /** Logging in again while authenticated is answered with 200 and changes
      nothing, whatever the body. */
  lemma LoginWhileAuthenticated(s: State, body1: Body, body2: Body, scheme: PasswordScheme)
    requires Valid(s) && s.session.Some?
    ensures Login(s, body1, scheme) == Login(s, body2, scheme)
    ensures Login(s, body1, scheme).next == s && Login(s, body1, scheme).response.Code() == 200
  {
  }

  // -----------------------------------------------------------------------
  // Isolation between users

  /** A task of another user behaves exactly like a task that does not
      exist: the listing omits it, and deleting or updating it gives the
      same 404 as a missing id, with nothing changed. */
  lemma ForeignTaskLooksMissing(s: State, t: TaskId, missing: TaskId, body: Body)
    requires Valid(s) && s.session.Some?
    requires t in s.tasks && s.tasks[t].owner != s.session.value
    requires missing !in s.tasks
    requires FitsInt64(t) && FitsInt64(missing)
    ensures forall row :: row in ListTasks(s).response.rows ==> row.id != t
    ensures DeleteTask(s, t) == DeleteTask(s, missing) == Step(s, NotFound)
    ensures UpdateTask(s, t, body) == UpdateTask(s, missing, body)
    ensures UpdateTask(s, t, body).next == s
    ensures DeleteTask(s, t).response.Code() == 404
    ensures Has(body, CompletedKey) && Field(body, CompletedKey).Bool? ==> UpdateTask(s, t, body).response.Code() == 404
  {
  }

  /** The tasks of user `other` are the same in `s` and `s2`. */
  ghost predicate SameTasksOf(s: State, s2: State, other: UserId) {
    && (forall t :: OwnedBy(s2, t, other) <==> OwnedBy(s, t, other))
    && (forall t :: OwnedBy(s, t, other) ==> s2.tasks[t] == s.tasks[t])
  }

  /** Adding a task leaves the tasks of every other user alone. */
  lemma AddTaskKeepsOthers(s: State, body: Body, other: UserId)
    requires Valid(s) && s.session.Some? && other != s.session.value
    ensures var s2 := AddTask(s, body).next;
      s2.users == s.users && SameTasksOf(s, s2, other)
  {
    var out := AddTask(s, body);
    if out.response.TaskAdded? {
      InsertKeepsOthers(s, out.next, out.response.taskId, Task(out.response.description, false, s.session.value), other);
    }
  }

  /** Inserting a task of one user leaves the tasks of any other user alone. */
  lemma InsertKeepsOthers(s: State, s2: State, id: TaskId, task: Task, other: UserId)
    requires TaskInserted(s, s2, id, task) && task.owner != other
    ensures SameTasksOf(s, s2, other)
  {
  }

  /** Deleting a task leaves the tasks of every other user alone. */
  lemma DeleteTaskKeepsOthers(s: State, t: TaskId, other: UserId)
    requires Valid(s) && s.session.Some? && other != s.session.value
    ensures var s2 := DeleteTask(s, t).next;
      s2.users == s.users && SameTasksOf(s, s2, other)
  {
  }

  /** Updating a task leaves the tasks of every other user alone. */
  lemma UpdateTaskKeepsOthers(s: State, t: TaskId, body: Body, other: UserId)
    requires Valid(s) && s.session.Some? && other != s.session.value
    ensures var s2 := UpdateTask(s, t, body).next;
      s2.users == s.users && SameTasksOf(s, s2, other)
  {
  }

  /** What one user does to their own tasks never changes the tasks of
      another user. */
  lemma OwnWritesInvisibleToOthers(s: State, req: Request, scheme: PasswordScheme, other: UserId)
    requires Valid(s) && s.session.Some? && other != s.session.value
    requires req.PostTarea? || req.DeleteTarea? || req.PutTarea?
    ensures var s2 := Handle(s, req, scheme).next;
      s2.users == s.users && SameTasksOf(s, s2, other)
  {
    match req
    case PostTarea(body) => AddTaskKeepsOthers(s, body, other);
    case DeleteTarea(id) => DeleteTaskKeepsOthers(s, id, other);
    case PutTarea(id, body) => UpdateTaskKeepsOthers(s, id, body, other);
  }

  /** A listing is determined by the tasks of the user it lists. */
  lemma ListsOwnedUnique(s: State, u: UserId, r1: set<TaskRow>, r2: set<TaskRow>)
    requires ListsOwned(s, u, r1) && ListsOwned(s, u, r2)
    ensures r1 == r2
  {
    assert forall r :: r in r1 ==> r in r2;
  }

  /** A user's listing depends only on that user's tasks, so another user's
      writes leave it as it was. */
  lemma ListingDependsOnOwnTasks(s: State, s2: State, u: UserId)
    requires Valid(s) && Valid(s2) && u in s.users && u in s2.users
    requires SameTasksOf(s, s2, u)
    ensures ListTasks(WithSession(s2, Some(u))).response == ListTasks(WithSession(s, Some(u))).response
  {
    var a := WithSession(s, Some(u));
    var b := WithSession(s2, Some(u));
    var ra := ListTasks(a).response.rows;
    var rb := ListTasks(b).response.rows;
    assert ListsOwned(a, u, ra);
    forall row | row in ra ensures OwnedBy(b, row.id, u) && row == Row(row.id, b.tasks[row.id]) {
      assert OwnedBy(s, row.id, u);
    }
    forall x | OwnedBy(b, x, u) ensures Row(x, b.tasks[x]) in ra {
      assert OwnedBy(s, x, u) && s2.tasks[x] == s.tasks[x];
    }
    ListsOwnedUnique(b, u, ra, rb);
  }

  // -----------------------------------------------------------------------
  // Round trips between task operations

  /** Inserting a task of `u` adds exactly its row to `u`'s listing. */
  lemma RowsAfterInsert(s: State, s2: State, id: TaskId, task: Task, before: set<TaskRow>, after: set<TaskRow>)
    requires TaskInserted(s, s2, id, task)
    requires ListsOwned(s, task.owner, before) && ListsOwned(s2, task.owner, after)
    ensures after == before + {Row(id, task)}
  {
    var u := task.owner;
    forall r | r in after ensures r in before + {Row(id, task)} {
      if r.id != id {
        assert OwnedBy(s, r.id, u);
      }
    }
    forall r | r in before + {Row(id, task)} ensures r in after {
      if r != Row(id, task) {
        assert OwnedBy(s2, r.id, u);
      }
    }
  }

  /** A description with something left after stripping is added, and the
      new task shows up in its owner's listing, not completed (0), next to
      the tasks listed before. */
  lemma AddThenList(s: State, body: Body)
    requires Valid(s) && s.session.Some?
    requires Has(body, DescriptionKey) && Field(body, DescriptionKey).Str? && !AllSpace(Field(body, DescriptionKey).s)
    ensures var add := AddTask(s, body);
      && add.response.TaskAdded?
      && add.response.description == Strip(Field(body, DescriptionKey).s)
      && ListTasks(add.next).response.rows
         == ListTasks(s).response.rows + {TaskRow(add.response.taskId, add.response.description, 0)}
  {
    var add := AddTask(s, body);
    AddTaskStoresStripped(s, body);
    var task := Task(add.response.description, false, s.session.value);
    RowsAfterInsert(s, add.next, add.response.taskId, task, ListTasks(s).response.rows, ListTasks(add.next).response.rows);
  }

  /** A task just added can be deleted, which restores the task table. */
  lemma AddThenDelete(s: State, body: Body)
    requires Valid(s) && s.session.Some?
    requires FitsInt64(s.nextTaskId)
    requires Has(body, DescriptionKey) && Field(body, DescriptionKey).Str? && !AllSpace(Field(body, DescriptionKey).s)
    ensures var add := AddTask(s, body);
      var del := DeleteTask(add.next, add.response.taskId);
      add.response.TaskAdded? && del.response == TaskDeleted && del.next.tasks == s.tasks
  {
    var add := AddTask(s, body);
    var id := add.response.taskId;
    assert OwnedBy(add.next, id, s.session.value);
    var del := DeleteTask(add.next, id);
    InsertThenRemove(s, add.next, del.next, id, Task(add.response.description, false, s.session.value));
  }

  /** A task once deleted is gone: deleting it again gives 404. */
  lemma DeleteTwice(s: State, t: TaskId)
    requires Valid(s)
    requires DeleteTask(s, t).response == TaskDeleted
    ensures DeleteTask(DeleteTask(s, t).next, t) == Step(DeleteTask(s, t).next, NotFound)
    ensures DeleteTask(DeleteTask(s, t).next, t).response.Code() == 404
  {
  }

  /** Setting the flag twice to the same value gives the same state and the
      same response both times. */
  lemma UpdateIdempotent(s: State, t: TaskId, body: Body)
    requires Valid(s)
    ensures var first := UpdateTask(s, t, body);
      UpdateTask(first.next, t, body) == Step(first.next, first.response)
  {
    var first := UpdateTask(s, t, body);
    if first.response.TaskUpdated? {
      assert first.next.tasks[t] == s.tasks[t].(completed := first.response.completed);
      assert first.next.tasks == first.next.tasks[t := first.next.tasks[t].(completed := first.response.completed)];
    }
  }

  /** A string description with something left after stripping is stored
      as its stripped text, not completed, under the next task id. */
  lemma AddTaskStoresStripped(s: State, body: Body)
    requires Valid(s) && s.session.Some?
    requires Has(body, DescriptionKey) && Field(body, DescriptionKey).Str? && !AllSpace(Field(body, DescriptionKey).s)
    ensures var add := AddTask(s, body);
      && add.response.TaskAdded?
      && add.response.description == Strip(Field(body, DescriptionKey).s)
      && !add.response.completed
      && add.response.taskId == s.nextTaskId
      && add.next.tasks == s.tasks[add.response.taskId := Task(add.response.description, false, s.session.value)]
      && add.next == s.(tasks := add.next.tasks, nextTaskId := s.nextTaskId + 1)
  {
    var text := Field(body, DescriptionKey).s;
    var add := AddTask(s, body);
    StripUnique(text, add.response.description, Strip(text));
    var id := add.response.taskId;
    assert add.next.tasks.Keys == s.tasks.Keys + {id};
  }

  /** A description that is already stripped is added as it is. */
  lemma AddTaskTrimmed(s: State, text: string)
    requires Valid(s) && s.session.Some?
    requires text != [] && Trimmed(text)
    ensures AddTask(s, Some(map[DescriptionKey := Str(text)]))
         == Step(s.(tasks := s.tasks[s.nextTaskId := Task(text, false, s.session.value)], nextTaskId := s.nextTaskId + 1),
                 TaskAdded(s.nextTaskId, text, false))
  {
    var body := Some(map[DescriptionKey := Str(text)]);
    assert Field(body, DescriptionKey) == Str(text);
    assert !IsSpace(text[0]);
    StripTrimmed(text);
    AddTaskStoresStripped(s, body);
  }

  /** Example: the description " buy milk " is stored and
      echoed as "buy milk", not completed. */
  lemma AddTaskStripsDescription(s: State)
    requires Valid(s) && s.session.Some?
    ensures var add := AddTask(s, Some(map[DescriptionKey := Str(" buy milk ")]));
      add.response.TaskAdded? && add.response.description == "buy milk" && !add.response.completed
  {
    var body := Some(map[DescriptionKey := Str(" buy milk ")]);
    assert Field(body, DescriptionKey) == Str(" buy milk ");
    StripExample();
    AddTaskStoresStripped(s, body);
  }

  // -----------------------------------------------------------------------
  // A whole session

  /** The database once alice, with stored credential `h`, is the only user:
      her session, her tasks and the task counter vary along the session. */
  function Alice(h: Credential, session: Option<UserId>, tasks: map<TaskId, Task>, nextTaskId: nat): State {
    State(map[1 := User("alice", h)], tasks, session, 2, nextTaskId)
  }

  const Report := Task("write report", false, 1)
  const ReportDone := Task("write report", true, 1)

  /** The states of the session below satisfy the invariant. */
  lemma AliceValid(h: Credential, session: Option<UserId>, tasks: map<TaskId, Task>, nextTaskId: nat)
    requires session.None? || session == Some(1)
    requires tasks == map[] || (nextTaskId == 2 && (tasks == map[1 := Report] || tasks == map[1 := ReportDone]))
    ensures Valid(Alice(h, session, tasks, nextTaskId))
  {
    var text := "write report";
    assert !IsSpace(text[0]) && !IsSpace(text[|text| - 1]);
  }

  lemma RegisterAlice(scheme: PasswordScheme, salt: string)
    ensures Register(Init(), Credentials("alice", "secret123"), salt, scheme)
         == Step(Alice(scheme.hash("secret123", salt), None, map[], 1), Registered(1))
  {
    assert !NameTaken(Init().users, "alice");
  }

  lemma LoginAlice(scheme: PasswordScheme, h: Credential)
    requires h != [] && scheme.matches(h, "secret123")
    ensures Valid(Alice(h, None, map[], 1))
    ensures Login(Alice(h, None, map[], 1), Credentials("alice", "secret123"), scheme)
         == Step(Alice(h, Some(1), map[], 1), LoggedIn("alice"))
  {
    var s := Alice(h, None, map[], 1);
    assert Accepts(s, scheme, 1, "secret123");
  }

  lemma AddReport(h: Credential)
    ensures Valid(Alice(h, Some(1), map[], 1))
    ensures AddTask(Alice(h, Some(1), map[], 1), Some(map[DescriptionKey := Str("write report")]))
         == Step(Alice(h, Some(1), map[1 := Report], 2), TaskAdded(1, "write report", false))
  {
    AliceValid(h, Some(1), map[], 1);
    AliceValid(h, Some(1), map[1 := Report], 2);
    AddTaskTrimmed(Alice(h, Some(1), map[], 1), "write report");
  }

  lemma MarkReportDone(h: Credential)
    ensures Valid(Alice(h, Some(1), map[1 := Report], 2))
    ensures UpdateTask(Alice(h, Some(1), map[1 := Report], 2), 1, Some(map[CompletedKey := Bool(true)]))
         == Step(Alice(h, Some(1), map[1 := ReportDone], 2), TaskUpdated(1, true))
  {
    var flag := Some(map[CompletedKey := Bool(true)]);
    assert Field(flag, CompletedKey) == Bool(true);
    var upd := UpdateTask(Alice(h, Some(1), map[1 := Report], 2), 1, flag);
    assert upd.next.tasks == map[1 := ReportDone];
  }

  lemma ListReportDone(h: Credential)
    ensures Valid(Alice(h, Some(1), map[1 := ReportDone], 2))
    ensures ListTasks(Alice(h, Some(1), map[1 := ReportDone], 2)).response
         == TaskList({TaskRow(1, "write report", 1)})
  {
    var s := Alice(h, Some(1), map[1 := ReportDone], 2);
    ListsOwnedUnique(s, 1, ListTasks(s).response.rows, {TaskRow(1, "write report", 1)});
  }

  lemma DeleteReport(h: Credential)
    ensures Valid(Alice(h, Some(1), map[1 := ReportDone], 2))
    ensures DeleteTask(Alice(h, Some(1), map[1 := ReportDone], 2), 1)
         == Step(Alice(h, Some(1), map[], 2), TaskDeleted)
  {
    var del := DeleteTask(Alice(h, Some(1), map[1 := ReportDone], 2), 1);
    assert del.next.tasks == map[];
  }

  lemma LogoutAlice(h: Credential)
    ensures Valid(Alice(h, Some(1), map[], 2)) && Valid(Alice(h, None, map[], 2))
    ensures ListTasks(Alice(h, Some(1), map[], 2)).response == TaskList({})
    ensures Logout(Alice(h, Some(1), map[], 2)) == Step(Alice(h, None, map[], 2), LoggedOut)
    ensures ListTasks(Alice(h, None, map[], 2)).response == Unauthorized
  {
    var s := Alice(h, Some(1), map[], 2);
    ListsOwnedUnique(s, 1, ListTasks(s).response.rows, {});
  }

  /** A complete session on a fresh database: register
      alice (201, id 1), log her in, add "write report" (task 1, not
      completed), mark it done, list it (completed reads 1), delete it, list
      nothing, log out; the listing is then refused with 401. */
  lemma AliceSession(scheme: PasswordScheme, salt: string)
    requires Sound(scheme)
    ensures var h := scheme.hash("secret123", salt);
      && Register(Init(), Credentials("alice", "secret123"), salt, scheme)
         == Step(Alice(h, None, map[], 1), Registered(1))
      && Valid(Alice(h, None, map[], 1))
      && Login(Alice(h, None, map[], 1), Credentials("alice", "secret123"), scheme)
         == Step(Alice(h, Some(1), map[], 1), LoggedIn("alice"))
      && Valid(Alice(h, Some(1), map[], 1))
      && AddTask(Alice(h, Some(1), map[], 1), Some(map[DescriptionKey := Str("write report")]))
         == Step(Alice(h, Some(1), map[1 := Report], 2), TaskAdded(1, "write report", false))
      && Valid(Alice(h, Some(1), map[1 := Report], 2))
      && UpdateTask(Alice(h, Some(1), map[1 := Report], 2), 1, Some(map[CompletedKey := Bool(true)]))
         == Step(Alice(h, Some(1), map[1 := ReportDone], 2), TaskUpdated(1, true))
      && Valid(Alice(h, Some(1), map[1 := ReportDone], 2))
      && ListTasks(Alice(h, Some(1), map[1 := ReportDone], 2)).response
         == TaskList({TaskRow(1, "write report", 1)})
      && DeleteTask(Alice(h, Some(1), map[1 := ReportDone], 2), 1)
         == Step(Alice(h, Some(1), map[], 2), TaskDeleted)
      && Valid(Alice(h, Some(1), map[], 2))
      && ListTasks(Alice(h, Some(1), map[], 2)).response == TaskList({})
      && Valid(Alice(h, None, map[], 2))
      && Logout(Alice(h, Some(1), map[], 2)) == Step(Alice(h, None, map[], 2), LoggedOut)
      && ListTasks(Alice(h, None, map[], 2)).response == Unauthorized
  {
    var h := scheme.hash("secret123", salt);
    RegisterAlice(scheme, salt);
    LoginAlice(scheme, h);
    AddReport(h);
    MarkReportDone(h);
    ListReportDone(h);
    DeleteReport(h);
    LogoutAlice(h);
  }
}

=== FILE: store.dfy ===
/**
 The persistent state behind the API: the `usuarios` and `tareas` tables, the
 AUTOINCREMENT counters SQLite keeps for them, and the session's user, with
 the schema constraints as the invariant `Valid`.
 */
module Store {
  import opened Wrappers
  import opened Text

  type UserId = nat
  type TaskId = nat

  /** The stored password hash (`contrasena_hash`), opaque to the API. */
  type Credential = string

  /** The password-hashing library, which the API only calls: `hash` turns a
      password and a random salt into a stored credential, and `matches`
      checks a supplied password against a stored credential. */
  datatype PasswordScheme = PasswordScheme(
    hash: (string, string) -> Credential,
    matches: (Credential, string) -> bool)

  /** What the hashing library promises: a hash is never empty and always
      accepts the password it was made from. */
  ghost predicate Sound(scheme: PasswordScheme) {
    forall password, salt :: scheme.hash(password, salt) != [] && scheme.matches(scheme.hash(password, salt), password)
  }

  /** A row of `usuarios`. */
  datatype User = User(name: string, credential: Credential)

  /** A row of `tareas`. */
  datatype Task = Task(description: string, completed: bool, owner: UserId)

  /** Both tables, the next id each AUTOINCREMENT column hands out, and the
      user id the session cookie carries (`None` when nobody logged in). */
  datatype State = State(
    users: map<UserId, User>,
    tasks: map<TaskId, Task>,
    session: Option<UserId>,
    nextUserId: nat,
    nextTaskId: nat)

  /** `usuario TEXT UNIQUE`: no two users share a name. */
  predicate UniqueNames(users: map<UserId, User>) {
    forall a, b :: a in users && b in users && users[a].name == users[b].name ==> a == b
  }

  /** Every user id lies below the AUTOINCREMENT counter, so the next one
      is fresh; `usuario NOT NULL` and the registration check keep names
      non-empty. */
  predicate UsersWellFormed(s: State) {
    forall u :: u in s.users ==> u < s.nextUserId && s.users[u].name != []
  }

  /** Every task id lies below its counter, every task is owned by an
      existing user, and every description is non-empty and stripped. */
  predicate TasksWellFormed(s: State) {
    forall t :: t in s.tasks ==>
      && t < s.nextTaskId
      && s.tasks[t].owner in s.users
      && s.tasks[t].description != []
      && Trimmed(s.tasks[t].description)
  }

  /** A session is only ever issued, at login, to an existing user, and
      users are never deleted. */
  predicate SessionWellFormed(s: State) {
    s.session.Some? ==> s.session.value in s.users
  }

  /** The database constraints and the invariants the handlers maintain. */
  predicate Valid(s: State) {
    UniqueNames(s.users) && UsersWellFormed(s) && TasksWellFormed(s) && SessionWellFormed(s)
  }

  // -----------------------------------------------------------------------
  // The table changes the handlers make, each with "nothing else changes"

  /** `s2` is `s` with `user` inserted under a fresh id `id` that exceeds
      every id in use; the task table and the session are untouched. */
  predicate UserInserted(s: State, s2: State, id: UserId, user: User) {
    && id !in s.users
    && (forall u :: u in s.users ==> u < id)
    && id in s2.users && s2.users[id] == user
    && s2.users.Keys == s.users.Keys + {id}
    && (forall u :: u in s.users ==> u in s2.users && s2.users[u] == s.users[u])
    && s2.tasks == s.tasks && s2.session == s.session && s2.nextTaskId == s.nextTaskId
  }

  /** `s2` is `s` with `task` inserted under a fresh id `id` that exceeds
      every id in use; no other task, no user and not the session changes. */
  predicate TaskInserted(s: State, s2: State, id: TaskId, task: Task) {
    && id !in s.tasks
    && (forall t :: t in s.tasks ==> t < id)
    && id in s2.tasks && s2.tasks[id] == task
    && s2.tasks.Keys == s.tasks.Keys + {id}
    && (forall t :: t in s.tasks ==> t in s2.tasks && s2.tasks[t] == s.tasks[t])
    && s2.users == s.users && s2.session == s.session && s2.nextUserId == s.nextUserId
  }

  /** `s2` is `s` without task `t`; nothing else changes. */
  predicate TaskRemoved(s: State, s2: State, t: TaskId) {
    && t in s.tasks
    && s2.tasks.Keys == s.tasks.Keys - {t}
    && (forall x :: x in s.tasks && x != t ==> x in s2.tasks && s2.tasks[x] == s.tasks[x])
    && s2 == s.(tasks := s2.tasks)
  }

  /** `s2` is `s` with the `completed` flag of task `t` set to `done`; its
      description and owner, every other task and everything else stay. */
  predicate CompletedSet(s: State, s2: State, t: TaskId, done: bool) {
    && t in s.tasks
    && t in s2.tasks
    && s2.tasks[t] == s.tasks[t].(completed := done)
    && s2.tasks.Keys == s.tasks.Keys
    && (forall x :: x in s.tasks && x != t ==> x in s2.tasks && s2.tasks[x] == s.tasks[x])
    && s2 == s.(tasks := s2.tasks)
  }

  /** `INSERT INTO usuarios`: the new row takes the AUTOINCREMENT counter
      as its id, which is fresh in a valid state. */
  function InsertUser(s: State, user: User): (s2: State)
    requires Valid(s)
    requires user.name != [] && !NameTaken(s.users, user.name)
    ensures UserInserted(s, s2, s.nextUserId, user)
    ensures Valid(s2)
  {
    s.(users := s.users[s.nextUserId := user], nextUserId := s.nextUserId + 1)
  }

  /** `INSERT INTO tareas`, likewise under the next fresh id. */
  function InsertTask(s: State, task: Task): (s2: State)
    requires Valid(s)
    requires task.owner in s.users && task.description != [] && Trimmed(task.description)
    ensures TaskInserted(s, s2, s.nextTaskId, task)
    ensures Valid(s2)
  {
    s.(tasks := s.tasks[s.nextTaskId := task], nextTaskId := s.nextTaskId + 1)
  }

  /** `DELETE FROM tareas WHERE id = t` on a row that exists. */
  function RemoveTask(s: State, t: TaskId): (s2: State)
    requires Valid(s) && t in s.tasks
    ensures TaskRemoved(s, s2, t)
    ensures Valid(s2)
  {
    s.(tasks := s.tasks - {t})
  }

  /** `UPDATE tareas SET completada = done WHERE id = t` on a row that exists. */
  function SetCompleted(s: State, t: TaskId, done: bool): (s2: State)
    requires Valid(s) && t in s.tasks
    ensures CompletedSet(s, s2, t, done)
    ensures Valid(s2)
  {
    s.(tasks := s.tasks[t := s.tasks[t].(completed := done)])
  }

  /** The session binds an existing user or nobody; the tables stay as they are. */
  function WithSession(s: State, session: Option<UserId>): (s2: State)
    requires Valid(s)
    requires session.Some? ==> session.value in s.users
    ensures Valid(s2)
    ensures s2.session == session && s2.users == s.users && s2.tasks == s.tasks
    ensures s2.nextUserId == s.nextUserId && s2.nextTaskId == s.nextTaskId
  {
    s.(session := session)
  }

  /** Removing a task just inserted gives back the task table. */
  lemma InsertThenRemove(s: State, s2: State, s3: State, id: TaskId, task: Task)
    requires TaskInserted(s, s2, id, task) && TaskRemoved(s2, s3, id)
    ensures s3.tasks == s.tasks
  {
    assert s3.tasks.Keys == s.tasks.Keys;
  }

  /** The database as the setup script leaves it: empty tables, SQLite's
      AUTOINCREMENT starting at 1, nobody logged in. */
  function Init(): (s: State)
    ensures Valid(s) && s.users == map[] && s.tasks == map[] && s.session == None
  {
    State(map[], map[], None, 1, 1)
  }

  /** Some user is called `name`. */
  predicate NameTaken(users: map<UserId, User>, name: string) {
    exists u :: u in users && users[u].name == name
  }

  /** `User.get_by_username`: the id of the user called `name`, if any. */
  function FindUser(users: map<UserId, User>, name: string): (r: Option<UserId>)
    requires UniqueNames(users)
    ensures r.Some? <==> NameTaken(users, name)
    ensures r.Some? ==> r.value in users && users[r.value].name == name
  {
    if NameTaken(users, name) then
      Some(var u :| u in users && users[u].name == name; u)
    else
      None
  }

  /** `current_user`: the session's user, reloaded from the table; a session
      whose user no longer exists is anonymous. */
  function CurrentUser(s: State): (r: Option<UserId>)
    ensures r.Some? ==> r.value in s.users && s.session == r
    ensures Valid(s) ==> r == s.session
  {
    match s.session
    case Some(u) => if u in s.users then Some(u) else None
    case None => None
  }

  /** Task `t` exists and belongs to user `u`: the row
      `WHERE id = t AND usuario_id = u` that delete and update act on. */
  predicate OwnedBy(s: State, t: TaskId, u: UserId) {
    t in s.tasks && s.tasks[t].owner == u
  }
}

=== FILE: text.dfy ===
/**
 Text operations the API applies to request strings: Python's `str.strip()`
 (restricted to ASCII whitespace) and the decimal rendering SQLite gives a
 number stored in a TEXT column.
 */
module Text {

  /** The ASCII characters for which Python's `str.isspace` holds: space,
      tab, line feed, vertical tab, form feed, carriage return and the four
      information separators U+001C..U+001F. */
  predicate IsSpace(c: char) {
    c == ' ' || ('\t' <= c <= '\r') || ('\U{1C}' <= c <= '\U{1F}')
  }

  predicate AllSpace(s: string) {
    forall i :: 0 <= i < |s| ==> IsSpace(s[i])
  }

  /** `r` has no whitespace at either end. */
  predicate Trimmed(r: string) {
    r == [] || (!IsSpace(r[0]) && !IsSpace(r[|r| - 1]))
  }

  /** Every character of `s` outside the index range `i..j` is whitespace. */
  predicate SpaceOutside(s: string, i: nat, j: nat)
    requires i <= j <= |s|
  {
    forall k :: 0 <= k < |s| && !(i <= k < j) ==> IsSpace(s[k])
  }

  /** The range `i..j` of `s` is what remains once whitespace is cut from
      both ends: everything outside it is whitespace and, unless it is
      empty, it starts and ends with a non-space character. */
  predicate StripRange(s: string, i: nat, j: nat) {
    && i <= j <= |s|
    && SpaceOutside(s, i, j)
    && (i == j || (!IsSpace(s[i]) && !IsSpace(s[j - 1])))
  }

  /** Reference definition of stripping: `r` is the text of a strip range of `s`. */
  ghost predicate IsStripOf(s: string, r: string) {
    exists i: nat, j: nat :: StripRange(s, i, j) && r == s[i..j]
  }

  /** `s` without its leading whitespace. */
  function StripStart(s: string): (r: string)
    ensures |r| <= |s|
    ensures r == s[|s| - |r|..]
    ensures forall k :: 0 <= k < |s| - |r| ==> IsSpace(s[k])
    ensures r == [] || !IsSpace(r[0])
  {
    if |s| > 0 && IsSpace(s[0]) then StripStart(s[1..]) else s
  }

  /** `s` without its trailing whitespace. */
  function StripEnd(s: string): (r: string)
    ensures |r| <= |s|
    ensures r == s[..|r|]
    ensures forall k :: |r| <= k < |s| ==> IsSpace(s[k])
    ensures r == [] || !IsSpace(r[|r| - 1])
  {
    if |s| > 0 && IsSpace(s[|s| - 1]) then StripEnd(s[..|s| - 1]) else s
  }

  /** Cutting a whitespace prefix of length `i` and then a whitespace
      suffix from what is left, `a`, leaves the strip range `i..i + |r|`. */
  lemma CutLeavesStripRange(s: string, a: string, r: string, i: nat)
    requires i <= |s| && a == s[i..]
    requires forall k :: 0 <= k < i ==> IsSpace(s[k])
    requires |r| <= |a| && r == a[..|r|]
    requires forall k :: |r| <= k < |a| ==> IsSpace(a[k])
    requires r == [] || (!IsSpace(r[0]) && !IsSpace(r[|r| - 1]))
    ensures StripRange(s, i, i + |r|) && r == s[i..i + |r|]
  {
    forall k | i + |r| <= k < |s| ensures IsSpace(s[k]) {
      assert s[k] == a[k - i];
    }
    if r != [] {
      assert s[i] == r[0] && s[i + |r| - 1] == r[|r| - 1];
    }
  }

  /** Python's `s.strip()` on ASCII whitespace. */
  function Strip(s: string): (r: string)
    ensures IsStripOf(s, r)
    ensures Trimmed(r)
    ensures r == [] <==> AllSpace(s)
  {
    var a := StripStart(s);
    var r := StripEnd(a);
    CutLeavesStripRange(s, a, r, |s| - |a|);
    r
  }

  /** A string has one strip range, up to where an empty one sits. */
  lemma StripRangeUnique(s: string, i1: nat, j1: nat, i2: nat, j2: nat)
    requires StripRange(s, i1, j1) && StripRange(s, i2, j2)
    ensures (i1 == i2 && j1 == j2) || (i1 == j1 && i2 == j2)
  {
    // A non-space end character of one range lies inside the other.
    if i1 < j1 {
      assert !IsSpace(s[i1]) && !IsSpace(s[j1 - 1]);
    }
    if i2 < j2 {
      assert !IsSpace(s[i2]) && !IsSpace(s[j2 - 1]);
    }
  }

  /** The characterisation determines the stripped string: there is exactly
      one way to strip a string. */
  lemma StripUnique(s: string, r1: string, r2: string)
    requires IsStripOf(s, r1) && IsStripOf(s, r2)
    ensures r1 == r2
  {
    var i1: nat, j1: nat :| StripRange(s, i1, j1) && r1 == s[i1..j1];
    var i2: nat, j2: nat :| StripRange(s, i2, j2) && r2 == s[i2..j2];
    StripRangeUnique(s, i1, j1, i2, j2);
  }

  /** A string with no whitespace at either end strips to itself. */
  lemma StripTrimmed(s: string)
    requires Trimmed(s)
    ensures Strip(s) == s
  {
    assert s[0..|s|] == s;
    assert StripRange(s, 0, |s|);
    StripUnique(s, s, Strip(s));
  }

  /** Stripping twice is stripping once. */
  lemma StripIdempotent(s: string)
    ensures Strip(Strip(s)) == Strip(s)
  {
    StripTrimmed(Strip(s));
  }

  /** Example: " buy milk " strips to "buy milk". */
  lemma StripExample()
    ensures Strip(" buy milk ") == "buy milk"
  {
    var s := " buy milk ";
    assert s[1..9] == "buy milk";
    assert StripRange(s, 1, 9);
    StripUnique(s, "buy milk", Strip(s));
  }

  // ---------------------------------------------------------------------
  // Decimal text of integers

  function DigitChar(d: nat): (c: char)
    requires d < 10
    ensures '0' <= c <= '9'
  {
    "0123456789"[d]
  }

  function DigitValue(c: char): nat
    requires '0' <= c <= '9'
  {
    (c as int - '0' as int) as nat
  }

  predicate AllDigits(s: string) {
    forall i :: 0 <= i < |s| ==> '0' <= s[i] <= '9'
  }

  /** The decimal digits of `n`, most significant first, with no leading zero. */
  function NatText(n: nat): (r: string)
    ensures r != [] && AllDigits(r)
    ensures |r| > 1 ==> r[0] != '0'
  {
    if n < 10 then [DigitChar(n)] else NatText(n / 10) + [DigitChar(n % 10)]
  }

  /** Reads a string of decimal digits back as a number. */
  function ParseDigits(s: string): nat
    requires AllDigits(s)
  {
    if s == [] then 0 else 10 * ParseDigits(s[..|s| - 1]) + DigitValue(s[|s| - 1])
  }

  /** How SQLite renders an integer stored in a TEXT column: optional minus
      sign followed by the decimal digits of the magnitude. */
  function DecimalText(n: int): (r: string)
    ensures r != []
    ensures r[0] == '-' <==> n < 0
  {
    if n < 0 then "-" + NatText(-n) else NatText(n)
  }

  lemma {:induction false} ParseNatText(n: nat)
    ensures ParseDigits(NatText(n)) == n
  {
    if n >= 10 {
      var t := NatText(n);
      assert t[..|t| - 1] == NatText(n / 10);
      ParseNatText(n / 10);
    }
  }

  lemma NatTextInjective(m: nat, n: nat)
    requires NatText(m) == NatText(n)
    ensures m == n
  {
    ParseNatText(m);
    ParseNatText(n);
  }

  /** Distinct integers are stored as distinct texts. */
  lemma DecimalTextInjective(a: int, b: int)
    requires DecimalText(a) == DecimalText(b)
    ensures a == b
  {
    if a < 0 && b < 0 {
      var t := DecimalText(a);
      assert t[1..] == NatText(-a) && t[1..] == NatText(-b);
      NatTextInjective(-a, -b);
    } else if 0 <= a && 0 <= b {
      NatTextInjective(a, b);
    }
  }
}

=== FILE: wrappers.dfy ===
/** The optional value used at every lookup boundary of the model. */
module Wrappers {

  /** A value that may be absent, in place of Python's `None`. */
  datatype Option<+T> = None | Some(value: T)
}
